=== FILE: README.md ===
# cube-ashima-noise in Dafny

A model of the page logic of a small WebGL demo: three translucent cubes,
distorted by a noise shader, rotate side by side. The mouse makes them
livelier. Hovering moves the distortion and the rotation speed toward the
control-panel values. A click bumps both at once, up to a cap, and starts a
cooldown timer. Leaving the overlay lets the distortion decay back to rest,
while the rotation speed jumps to its idle value, 5, on the next frame.
Every animation frame eases the current values toward their targets; every
frame that completes also advances the rotation angle.

The model has one module per concern:

- `Wrappers`: `Option`, standing for JavaScript's `null`.
- `Helpers` (app/js/helpers.js): `clamp`, and `isPowerOf2` exactly as
  written. This includes the 32-bit semantics of JavaScript's `&`
  (`ToUint32`, `ToInt32`, a bit-by-bit AND) and the comparison that
  precedence slips inside the `&`.
- `HexColor`: `hexToRgbF`. Its regular expression is a predicate and
  `parseInt(…, 16)` a digit function. A formatter `#rrggbb` serves as its
  inverse.
- `Geometry`: the tables `initBuffers` builds for cube `index`. These are
  the 24 vertices, their colours and normals as flat number arrays, and the
  36 triangle indices.
- `Scene`: the per-frame inputs `drawScene` hands to the matrix library and
  WebGL. For each cube these are the three translations, the rotation and
  the two culling passes. Once per frame come the uniform values. A null
  colour makes `drawScene` throw.
- `Animation`: the `Cube` object's state and its handlers.
  - Each handler is a pure transition on an immutable `CubeState`:
    `handleMouseEnter`, `handleMouseLeave`, `handleMouseClick`,
    `afterClick`, `render` and `handleGUI`.
  - The browser's timer table is modelled with its pending ids, the id
    stored in `this.timeout`, and the next id the browser hands out.
  - `Step` and `Run` replay a sequence of page events.
  - `Inv` is the invariant every reachable state keeps.
- `AnimationProofs`: properties of runs. These are:
  - at most one pending cooldown;
  - the debounce of double clicks;
  - saturation of repeated clicks;
  - the monotone rotation angle;
  - geometric convergence of the easing;
  - the frozen loop after an unparsable colour.

Numbers are exact reals; `isPowerOf2` works on integers with explicit
32-bit wrap-around.

Two details of the code are easy to misread:

- A click leaves the distortion smoothing coefficient `distortionCoef`
  unchanged (app/js/cube.js:135-143).
- `rotationSpeedCoef` is 1 (app/js/cube.js:39), so the rotation speed
  jumps to its target on the next frame instead of easing toward it.

## Model

| member | source | states |
|---|---|---|
| `Helpers.Clamp` | app/js/helpers.js:3-6 | The result never exceeds `max`. With `min <= max` it lies in `[min, max]`, equals `value` inside the range and the violated bound outside it. With `min > max` it is `max`. |
| `Helpers.ClampIdempotent` | app/js/helpers.js:3-6 | Clamping an already clamped value changes nothing. |
| `Helpers.ClampMonotone` | app/js/helpers.js:3-6 | Clamping preserves the order of its inputs. |
| `Helpers.Int32And` | app/js/helpers.js:35 | JavaScript `&` yields a signed 32-bit integer. On non-negative int32 operands it is the bitwise AND. |
| `Helpers.IsPowerOf2` | app/js/helpers.js:34-36 | As written, the function answers 1 exactly when the value is 1 and 0 for every other integer. |
| `Helpers.IsPowerOf2MissesFour` | app/js/helpers.js:34-36 | 4 is a power of two, yet the function answers 0 for it, while the intended test accepts it. |
| `Helpers.IsPowerOf2IntendedCorrect` | app/js/helpers.js:34-36 | On positive int32 values, the intended `(value & (value - 1)) === 0` holds exactly for the powers of two: the values that halve down to 1, which are exactly the values `2^k`. |
| `Helpers.PredecessorAndIsZeroIffPowerOf2` | app/js/helpers.js:35 | For positive `n`, `n & (n - 1)` is 0 exactly when `n` is a power of two (both directions). |
| `HexColor.HexToRgbF` | app/js/cube.js:729-736 | The result is non-null exactly when the pattern matches. Each channel lies in [0, 1], and each channel times 255 is the value of its two hex digits. |
| `HexColor.FormatThenParse` | app/js/cube.js:729-736 | Parsing a formatted `#rrggbb` gives back each byte divided by 255. |
| `HexColor.ParseThenFormat` | app/js/cube.js:729-736 | Formatting the bytes of a parsed colour gives back the input: with a `#`, in lower case. |
| `HexColor.HashIsOptional` | app/js/cube.js:730 | Prefixing `#` to a string that does not start with one never changes the result. |
| `HexColor.CaseInsensitive` | app/js/cube.js:730 | Under the `i` flag, upper-casing the input never changes the result. |
| `HexColor.HexExamples` | app/js/cube.js:729-736 | `#ff0000`, `ff0000` and `#FF0000` parse to pure red. `zzzzzz` and `#ff000` give null. |
| `Geometry.InitBuffers` | app/js/cube.js:202-396 | 72 position numbers, 96 colour numbers, 72 normal numbers and 36 indices per cube. The second index array equals the first. |
| `Geometry.AllCubes` | app/js/cube.js:103-108 | `init` builds three sets of buffers, the `i`-th for cube `i`. |
| `Geometry.PositionsSpanCube` | app/js/cube.js:211-255 | Every x is `-1 + 3 index` or `1 + 3 index`, and every y and z is -1 or 1. |
| `Geometry.ColorsAreCubeColor` | app/js/cube.js:272-309 | Every vertex colour is `(index / 3, 0, 1, 0.4)`. |
| `Geometry.NormalsAreUnitAxes` | app/js/cube.js:325-361 | Every normal is a unit vector along one axis. |
| `Geometry.NormalsMatchFaces` | app/js/cube.js:211-361 | Every vertex is a corner of the 2x2x2 box around its cube's centre. Its normal points out through its face: the vertex lies one unit out along it. |
| `Geometry.FacesUseOwnVertices` | app/js/cube.js:370-377 | Indices are below 24. The six indices of face `f` name only vertices `4f..4f+3`, and every vertex is used. |
| `Geometry.TrianglesFaceOutward` | app/js/cube.js:370-377 | All 12 triangles wind counter-clockwise seen from outside. So the `FRONT` culling pass draws the inner side and the `BACK` pass the outer side. |
| `Geometry.CubesDifferOnlyInOffsetAndRed` | app/js/cube.js:211-274 | Two cubes' buffers differ only by `3 (j - i)` on the x coordinates and by `(j - i) / 3` on the red channels. Normals and indices are equal. |
| `Scene.LateralOffset` | app/js/cube.js:489-504 | For cubes 0, 1 and 2 the lateral translation is `3 i - 3`. |
| `Scene.ReturnOffset` | app/js/cube.js:512-526 | The translation after the rotation cancels the x of cube `i`'s centre. |
| `Scene.CubesSpacedAlongX` | app/js/cube.js:489-504 | The cubes land at x = -3, 0 and 3, 3 units apart. |
| `Scene.CubesRotateAboutOwnCentre` | app/js/cube.js:507-526 | After the return translation, every vertex of cube `i` is at x = ±1 and its centre is at the origin. So each cube turns about its own centre. |
| `Scene.DrawScene` | app/js/cube.js:398-712 | A picture is completed exactly when the colour is non-null. It has one draw per cube. Cube `i` is moved by the camera translation, then by `LateralOffset(i)` along x, rotated by `rotation + 10 i` about (0, 1, 1), then moved by `ReturnOffset(i)`; it is drawn in a `FRONT` then a `BACK` pass over 36 indices. The uniforms are the fixed projection, the given distortion, speed, light intensity and time, and the parsed colour. |
| `Animation.Init` | app/js/cube.js:22-42 | Distortion and its target start at 0, rotation speed and its target at 35, the colour is pure red, and no timer is pending. Frames and mouse listeners are active exactly when WebGL is available (cube.js:75-78, 110-112). |
| `Animation.MouseEnter` | app/js/cube.js:122-126 | The targets become the hover options. The smoothing becomes 0.4. Nothing else changes. |
| `Animation.MouseLeave` | app/js/cube.js:128-133 | The stored timeout is cancelled: it alone leaves the pending set, and the stored handle and the id counter stay. The targets become 0 and 5 with the 0.05 smoothing. Nothing else changes. |
| `Animation.MouseClick` | app/js/cube.js:135-143 | Values and targets both rise by 1 and 30, capped at 3 and 100. The old timeout is cancelled and exactly one fresh one is armed and stored. |
| `Animation.AfterClick` | app/js/cube.js:145-149 | The targets return to the hover options with the 0.05 smoothing. Nothing else changes. |
| `Animation.TimerFires` | app/js/cube.js:141-142 | Only a pending timeout runs `afterClick`, it runs once, and a cancelled one does nothing. |
| `Animation.Ease` | app/js/cube.js:719-720 | One step multiplies the gap to the target by `1 - coef`. With `coef = 1` it lands on the target. |
| `Animation.EaseApproaches` | app/js/cube.js:719-720 | With `coef` in [0, 1] a step lands between the value and its target, so the gap never grows. |
| `Animation.Render` | app/js/cube.js:714-727 | Both gaps shrink by their factors, and the frame time is `now / 1000`. When the colour is non-null, the scene is drawn with the old angle and eased distortion, and the angle then grows by `rotationSpeed / 2000`. A null colour throws: the angle stays and no further frame is requested. |
| `Animation.Step` | app/js/cube.js:59-119 | Mouse events change nothing until the listeners are attached, and frames change nothing once the loop has stopped. A slider move writes only its three options. A colour edit writes the two colour options and sets the colour to `hexToRgbF` of the new string, and nothing else. A timeout that is not pending does nothing. |
| `Animation.HandleGui` | app/js/cube.js:740-745 | The colour becomes `hexToRgbF` of the colour option, so it is non-null exactly when the string matches and its channels are the parsed pairs over 255. Nothing else changes. |
| `Animation.StepPreservesInv` | app/js/cube.js:115-149 | Every event keeps the invariant. The invariant bounds the values and targets and keeps the timer table consistent (only the stored id may be pending). |
| `AnimationProofs.InitEstablishesInv` | app/js/cube.js:22-44 | The initial state satisfies the invariant. |
| `AnimationProofs.RunPreservesInv` | app/js/cube.js:115-149 | Any sequence of events keeps the invariant. |
| `AnimationProofs.AtMostOneTimer` | app/js/cube.js:141-142 | Under the invariant at most one cooldown is pending, and it is the stored one. |
| `AnimationProofs.RunKeepsOneTimer` | app/js/cube.js:140-142 | From page load, whatever the events, at most one cooldown timeout is ever pending. |
| `AnimationProofs.ClickDebounce` | app/js/cube.js:140-142 | After two clicks only the second click's timeout is pending. The first id firing changes nothing. |
| `AnimationProofs.LeaveCancelsCooldown` | app/js/cube.js:128-133 | Leaving the overlay leaves no timeout pending and targets 0 and 5. |
| `AnimationProofs.CooldownRetargets` | app/js/cube.js:141-149 | A click followed by its timeout firing retargets the hover options with the 0.05 smoothing and leaves nothing pending. |
| `AnimationProofs.ClicksSaturate` | app/js/cube.js:137-138 | `n` clicks give distortion `min(3, d + n)` and rotation speed `min(100, r + 30 n)`, and the targets follow. |
| `AnimationProofs.StepAdvancesRotation` | app/js/cube.js:724 | The angle never decreases, and only frames move it. A completed frame moves it by exactly the rotation-speed target over 2000. |
| `AnimationProofs.RotationSpeedSnaps` | app/js/cube.js:39 | With the coefficient 1, one frame brings the rotation speed onto its target. |
| `AnimationProofs.BadColorStopsLoop` | app/js/cube.js:704-706 | After an unparsable colour, the next frame throws. The angle stops, and later frames change nothing. |
| `AnimationProofs.EaseStepsGap` | app/js/cube.js:719 | After `n` steps the gap is the initial gap times `(1 - coef)^n`. |
| `AnimationProofs.FramesEase` | app/js/cube.js:714-727 | A run of `n` frames eases distortion exactly `n` times toward a fixed target and holds the rotation speed at its target. |
| `AnimationProofs.HoverEaseSettles` | app/js/cube.js:123 | With the hover smoothing 0.4, five steps or more close at least nine tenths of the gap. |
| `AnimationProofs.HoverSettles` | app/js/cube.js:122-126 | After the mouse enters, five frames or more bring the distortion within a tenth of its initial gap to the hover amplitude, and the rotation speed onto the hover speed. |

## Left out

- WebGL itself is outside the model. This covers shader compilation and
  linking (`initShaderProgram` and `loadShader` returning null), buffer
  uploads, vertex attribute layouts, blending and depth state. Only the numbers
  handed to WebGL are modelled.
- The gl-matrix calls (`perspective`, `translate`, `rotate`, `invert`,
  `transpose`) belong to an outside library. Only their arguments are
  modelled. The canvas aspect ratio, which comes from the window size, is
  left out of `Projection`.
- The uniforms are uploaded after the draw calls, so the GPU applies them
  to the next frame's draws. `Picture` records the values without that
  timing.
- When the colour is null, the GL calls made before the throw are not
  modelled.
- Browser facilities are not modelled:
  - the DOM, `dat.gui` widgets, `alert`, canvas sizing and the background
    style `handleGUI` sets;
  - the 500 ms cooldown delay and the timing of `requestAnimationFrame`.
  
  Timer firing and frames are events in any order, with any frame time.
- JavaScript numbers are IEEE doubles and the buffers are `Float32Array`s.
  The model uses exact reals, so rounding is not modelled.
- `round`, `getRandom` and `browser` in app/js/helpers.js are not part of
  the demo's logic and not modelled. They are rounding, randomness and
  user-agent parsing.
- Helpers.IsPowerOf2: modelled on integer inputs only. NaN, fractions and
  non-number arguments, which `&` also converts, are not modelled.
- Helpers.IsPowerOf2IntendedCorrect: the correctness of the intended test
  is proved only for 0 < value < 2^31. Outside that range ToInt32
  wrap-around applies.
- Helpers.Clamp: NaN arguments are not modelled.
- Slider values are assumed to stay inside the ranges `dat.gui` gives them
  (app/js/cube.js:59-61). This is stated as `WellFormed` on events.

## Findings

| source | as written | input that shows it | evidently intended | confidence | as-written member | corrected member |
|---|---|---|---|---|---|---|
| app/js/helpers.js:34-36 | `value & value - 1 === 0` groups as `value & ((value - 1) === 0)`. The function answers 1 only for the value 1 and 0 for every other integer. | `isPowerOf2(4)` gives 0 although 4 is a power of two. | `(value & (value - 1)) === 0`, true exactly for powers of two. | not executed | `Helpers.IsPowerOf2MissesFour` | `Helpers.IsPowerOf2IntendedCorrect` |

=== FILE: animation.dfy ===
/** The animation and interaction state of the `Cube` class of
    app/js/cube.js: the scalars the render loop eases every frame, the
    mouse handlers that retarget them, the click cooldown timer, and the
    control-panel options they read. Each event of the page is a pure
    transition on an immutable `CubeState`; numbers are exact reals. */
module Animation {
  import opened Wrappers
  import opened Helpers
  import HexColor
  import Geometry
  import Scene

  /** `guiOpts`: the values the control panel edits. */
  datatype GuiOpts = GuiOpts(
    distortion: real,
    distortionSpeed: real,
    rotationSpeed: real,
    lightIntensity: real,
    color: string,
    bkgColor: string)

  /** The options `initGUI` starts with. */
  const DefaultGui: GuiOpts := GuiOpts(1.5, 2.0, 25.0, 0.5, "#ff0000", "#1b1b1b")

  /** The bounds of the three sliders of the "On hover" folder. */
  const MaxHoverDistortion: real := 1.8
  const MaxDistortionSpeed: real := 2.5
  const MaxHoverRotationSpeed: real := 60.0

  /** The three "On hover" slider values each lie within their slider's
      range. */
  predicate InSliderRanges(distortion: real, distortionSpeed: real, rotationSpeed: real)
  {
    && 0.0 <= distortion <= MaxHoverDistortion
    && 0.0 <= distortionSpeed <= MaxDistortionSpeed
    && 0.0 <= rotationSpeed <= MaxHoverRotationSpeed
  }

  /** Every slider value of the options lies within its slider's range. */
  predicate SliderRanges(g: GuiOpts)
  {
    InSliderRanges(g.distortion, g.distortionSpeed, g.rotationSpeed)
  }

  /** The browser's timer table as this page sees it: the ids of the
      timeouts still pending, the id last stored in `this.timeout`
      (`NoTimer` while it is still undefined), and the next id the browser
      will hand out. */
  datatype Timers = Timers(pending: set<nat>, handle: nat, nextId: nat)

  /** Stands for the undefined `this.timeout` before the first click;
      browsers never hand out this id, so clearing it cancels nothing. */
  const NoTimer: nat := 0

  /** `clearTimeout(id)`: the timeout with that id will not fire. */
  function ClearTimeout(t: Timers, id: nat): (r: Timers)
    ensures r.pending == t.pending - {id}
    ensures r.handle == t.handle && r.nextId == t.nextId
  {
    t.(pending := t.pending - {id})
  }

  /** `this.timeout = setTimeout(this.afterClick, 500)`: a fresh id is
      armed and stored in the handle. The 500 ms delay is not modelled. */
  function SetTimeout(t: Timers): (r: Timers)
    requires t.nextId > NoTimer
    ensures r.pending == t.pending + {t.nextId} && r.handle == t.nextId
    ensures r.nextId > t.nextId
  {
    Timers(t.pending + {t.nextId}, t.nextId, t.nextId + 1)
  }

  /** The fields of a `Cube` object the animation uses (`frameTime` is
      `this.then`, the last frame time in seconds). `looping` says
      whether a next animation frame is requested; `listening` whether the
      mouse handlers are attached to the overlay. */
  datatype CubeState = CubeState(
    distortion: real,
    distortionTarget: real,
    distortionCoef: real,
    rotationSpeed: real,
    rotationSpeedTarget: real,
    rotationSpeedCoef: real,
    cubeRotation: real,
    frameTime: real,
    timers: Timers,
    gui: GuiOpts,
    color: Option<HexColor.Rgb>,
    looping: bool,
    listening: bool)

  // Constants of the handlers and the render loop
  const InitialDistortionCoef: real := 0.065
  const HoverDistortionCoef: real := 0.4
  const ReleaseDistortionCoef: real := 0.05
  const RotationSpeedCoef: real := 1.0
  const InitialRotationSpeed: real := 35.0
  const IdleRotationSpeed: real := 5.0
  const ClickDistortionStep: real := 1.0
  const ClickRotationSpeedStep: real := 30.0
  const DistortionCap: real := 3.0
  const RotationSpeedCap: real := 100.0
  /** `cubeRotation` advances by `rotationSpeed / RotationDivisor` per frame. */
  const RotationDivisor: real := 2000.0
  /** `now *= 0.001`: milliseconds to seconds. */
  const SecondsPerMillisecond: real := 0.001

  /** The constructor followed by `init`. When no WebGL context is
      available, `init` returns before requesting the first frame and before
      attaching the mouse listeners. */
  function Init(webglAvailable: bool): (s: CubeState)
    ensures s.distortion == s.distortionTarget == 0.0
    ensures s.rotationSpeed == s.rotationSpeedTarget == InitialRotationSpeed
    ensures s.timers.pending == {}
    ensures s.color == Some(HexColor.Rgb(1.0, 0.0, 0.0))
    ensures s.looping == s.listening == webglAvailable
  {
    HexColor.HexExamples();
    CubeState(
      0.0, 0.0, InitialDistortionCoef,
      InitialRotationSpeed, InitialRotationSpeed, RotationSpeedCoef,
      0.0, 0.0,
      Timers({}, NoTimer, NoTimer + 1),
      DefaultGui,
      HexColor.HexToRgbF(DefaultGui.color),
      webglAvailable, webglAvailable)
  }

  /** `handleMouseEnter`: fast response toward the hover values. */
  function MouseEnter(s: CubeState): (r: CubeState)
    ensures r.distortionTarget == s.gui.distortion && r.rotationSpeedTarget == s.gui.rotationSpeed
    ensures r.distortionCoef == HoverDistortionCoef
    ensures r == s.(distortionCoef := r.distortionCoef, distortionTarget := r.distortionTarget,
                    rotationSpeedTarget := r.rotationSpeedTarget)
  {
    s.(distortionCoef := HoverDistortionCoef,
       distortionTarget := s.gui.distortion,
       rotationSpeedTarget := s.gui.rotationSpeed)
  }

  /** `handleMouseLeave`: cancels the click timer, slow decay toward rest. */
  function MouseLeave(s: CubeState): (r: CubeState)
    ensures s.timers.handle !in r.timers.pending && r.timers.pending <= s.timers.pending
    ensures r.timers == ClearTimeout(s.timers, s.timers.handle)
    ensures r.timers.pending == s.timers.pending - {s.timers.handle}
    ensures r.timers.handle == s.timers.handle && r.timers.nextId == s.timers.nextId
    ensures r.distortionTarget == 0.0 && r.rotationSpeedTarget == IdleRotationSpeed
    ensures r.distortionCoef == ReleaseDistortionCoef
    ensures r == s.(timers := r.timers, distortionCoef := r.distortionCoef,
                    distortionTarget := r.distortionTarget, rotationSpeedTarget := r.rotationSpeedTarget)
  {
    s.(timers := ClearTimeout(s.timers, s.timers.handle),
       distortionCoef := ReleaseDistortionCoef,
       distortionTarget := 0.0,
       rotationSpeedTarget := IdleRotationSpeed)
  }

  /** `handleMouseClick`: bumps distortion and rotation speed (current value
      and target alike) by a capped step, then restarts the cooldown timer. */
  function MouseClick(s: CubeState): (r: CubeState)
    requires s.timers.nextId > NoTimer
    ensures r.distortion == r.distortionTarget <= DistortionCap
    ensures r.rotationSpeed == r.rotationSpeedTarget <= RotationSpeedCap
    ensures s.distortion + ClickDistortionStep <= DistortionCap ==> r.distortion == s.distortion + ClickDistortionStep
    ensures s.distortion + ClickDistortionStep > DistortionCap ==> r.distortion == DistortionCap
    ensures s.rotationSpeed + ClickRotationSpeedStep <= RotationSpeedCap ==> r.rotationSpeed == s.rotationSpeed + ClickRotationSpeedStep
    ensures s.rotationSpeed + ClickRotationSpeedStep > RotationSpeedCap ==> r.rotationSpeed == RotationSpeedCap
    ensures r.timers.pending == (s.timers.pending - {s.timers.handle}) + {r.timers.handle}
    ensures r.timers.handle == s.timers.nextId && r.timers.nextId > s.timers.nextId
    ensures r == s.(distortion := r.distortion, distortionTarget := r.distortionTarget,
                    rotationSpeed := r.rotationSpeed, rotationSpeedTarget := r.rotationSpeedTarget,
                    timers := r.timers)
  {
    var d := Min(DistortionCap, s.distortion + ClickDistortionStep);
    var v := Min(RotationSpeedCap, s.rotationSpeed + ClickRotationSpeedStep);
    s.(distortion := d, distortionTarget := d,
       rotationSpeed := v, rotationSpeedTarget := v,
       timers := SetTimeout(ClearTimeout(s.timers, s.timers.handle)))
  }

  /** `afterClick`: slow decay back toward the hover values. */
  function AfterClick(s: CubeState): (r: CubeState)
    ensures r.distortionTarget == s.gui.distortion && r.rotationSpeedTarget == s.gui.rotationSpeed
    ensures r.distortionCoef == ReleaseDistortionCoef
    ensures r == s.(distortionCoef := r.distortionCoef, distortionTarget := r.distortionTarget,
                    rotationSpeedTarget := r.rotationSpeedTarget)
  {
    s.(distortionCoef := ReleaseDistortionCoef,
       distortionTarget := s.gui.distortion,
       rotationSpeedTarget := s.gui.rotationSpeed)
  }

  /** The browser fires timeout `id`: only a pending timeout runs its
      callback, and it runs once. */
  function TimerFires(s: CubeState, id: nat): (r: CubeState)
    ensures id !in s.timers.pending ==> r == s
    ensures id in s.timers.pending ==> r == AfterClick(s.(timers := ClearTimeout(s.timers, id)))
    ensures id !in r.timers.pending
  {
    if id in s.timers.pending then AfterClick(s.(timers := ClearTimeout(s.timers, id))) else s
  }

  /** One first-order easing step: `x += (target - x) * coef`. The gap
      to the target is multiplied by `1 - coef`. */
  function Ease(x: real, target: real, coef: real): (r: real)
    ensures r - target == (1.0 - coef) * (x - target)
    ensures coef == 1.0 ==> r == target
  {
    x + Scale(target - x, coef)
  }

  /** With a coefficient in [0, 1] a step never overshoots: it lands between
      the old value and the target, so the gap never grows. */
  lemma EaseApproaches(x: real, target: real, coef: real)
    requires 0.0 <= coef <= 1.0
    ensures Abs(Ease(x, target, coef) - target) <= Abs(x - target)
    ensures x <= target ==> x <= Ease(x, target, coef) <= target
    ensures target <= x ==> target <= Ease(x, target, coef) <= x
  {
    ScaleBounds(target - x, coef);
  }

  /** The product `y * k`, named so that its bounds are proved once. */
  function Scale(y: real, k: real): real
  {
    y * k
  }

  /** Scaling by a factor in [0, 1] moves a number toward zero without
      crossing it. */
  lemma ScaleBounds(y: real, k: real)
    requires 0.0 <= k <= 1.0
    ensures 0.0 <= y ==> 0.0 <= Scale(y, k) <= y
    ensures y <= 0.0 ==> y <= Scale(y, k) <= 0.0
  {
    if 0.0 <= y {
      assert y - y * k == y * (1.0 - k);
    } else {
      assert y * k - y == (-y) * (1.0 - k);
    }
  }

  function Abs(x: real): real
  {
    if x < 0.0 then -x else x
  }

  /** The outcome of one `render` call: the new state and, when
      `drawScene` completed, the picture it drew. */
  datatype Rendered = Rendered(state: CubeState, picture: Option<Scene.Picture>)

  /** `render(now)`: ease distortion and rotation speed, draw the scene
      with the eased distortion and the current angle, then advance the
      angle and request the next frame. When `drawScene` throws (a null
      colour) the angle is not advanced and no next frame is requested. */
  function Render(s: CubeState, now: real): (out: Rendered)
    ensures out.state.frameTime == now / 1000.0
    ensures out.state.distortion - s.distortionTarget == (1.0 - s.distortionCoef) * (s.distortion - s.distortionTarget)
    ensures out.state.rotationSpeed - s.rotationSpeedTarget == (1.0 - s.rotationSpeedCoef) * (s.rotationSpeed - s.rotationSpeedTarget)
    ensures out.picture.Some? <==> s.color.Some?
    ensures out.picture.Some? ==>
      && out.state.cubeRotation - s.cubeRotation == out.state.rotationSpeed / RotationDivisor
      && out.state.looping == s.looping
      && |out.picture.value.draws| == Geometry.CubeCount
      && (forall i :: 0 <= i < Geometry.CubeCount ==>
            out.picture.value.draws[i].angle == s.cubeRotation + i as real * Scene.AngleStep)
      && out.picture.value.uniforms.distortion == out.state.distortion
    ensures out.picture.None? ==> out.state.cubeRotation == s.cubeRotation && !out.state.looping
    ensures out.state.timers == s.timers && out.state.gui == s.gui && out.state.color == s.color
    ensures out.state.distortionTarget == s.distortionTarget && out.state.rotationSpeedTarget == s.rotationSpeedTarget
    ensures out.state.distortionCoef == s.distortionCoef && out.state.rotationSpeedCoef == s.rotationSpeedCoef
    ensures out.state.listening == s.listening
  {
    var seconds := now * SecondsPerMillisecond;
    var eased := s.(frameTime := seconds,
                    distortion := Ease(s.distortion, s.distortionTarget, s.distortionCoef),
                    rotationSpeed := Ease(s.rotationSpeed, s.rotationSpeedTarget, s.rotationSpeedCoef));
    var picture := Scene.DrawScene(Geometry.CubeCount, eased.cubeRotation, eased.distortion,
                                   eased.gui.distortionSpeed, eased.gui.lightIntensity, eased.color, seconds);
    if picture.None? then
      Rendered(eased.(looping := false), None)
    else
      Rendered(eased.(cubeRotation := eased.cubeRotation + eased.rotationSpeed / RotationDivisor), picture)
  }

  /** `handleGUI`, run when a colour control changes: the tint is parsed
      again (the canvas background assignment is a page style, not
      modelled). */
  function HandleGui(s: CubeState): (r: CubeState)
    ensures r.color.Some? <==> HexColor.MatchesHexColor(s.gui.color)
    ensures r.color == HexColor.HexToRgbF(s.gui.color)
    ensures r == s.(color := r.color)
  {
    s.(color := HexColor.HexToRgbF(s.gui.color))
  }

  /** The events the page reacts to. `Slide` is a move of the three
      "On hover" sliders; `PickColors` an edit of the two colour controls. */
  datatype Event =
    | Enter
    | Leave
    | Click
    | TimerFired(id: nat)
    | AnimationFrame(now: real)
    | Slide(distortion: real, distortionSpeed: real, rotationSpeed: real)
    | PickColors(color: string, bkgColor: string)

  /** The sliders cannot leave their ranges. */
  predicate WellFormed(e: Event)
  {
    e.Slide? ==> InSliderRanges(e.distortion, e.distortionSpeed, e.rotationSpeed)
  }

  /** The state after one event. Mouse events reach the handlers only
      once they are attached; frames arrive only while the loop runs. */
  function Step(s: CubeState, e: Event): (r: CubeState)
    requires s.timers.nextId > NoTimer
    ensures !s.listening && (e.Enter? || e.Leave? || e.Click?) ==> r == s
    ensures !s.looping && e.AnimationFrame? ==> r == s
    ensures e.Slide? ==>
              && r == s.(gui := r.gui)
              && r.gui == s.gui.(distortion := e.distortion, distortionSpeed := e.distortionSpeed,
                                 rotationSpeed := e.rotationSpeed)
    ensures e.PickColors? ==>
              && r.gui == s.gui.(color := e.color, bkgColor := e.bkgColor)
              && (r.color.Some? <==> HexColor.MatchesHexColor(e.color))
              && r.color == HexColor.HexToRgbF(e.color)
              && r == s.(gui := r.gui, color := r.color)
    ensures e.TimerFired? && e.id !in s.timers.pending ==> r == s
  {
    match e
    case Enter => if s.listening then MouseEnter(s) else s
    case Leave => if s.listening then MouseLeave(s) else s
    case Click => if s.listening then MouseClick(s) else s
    case TimerFired(id) => TimerFires(s, id)
    case AnimationFrame(now) => if s.looping then Render(s, now).state else s
    case Slide(d, ds, rs) => s.(gui := s.gui.(distortion := d, distortionSpeed := ds, rotationSpeed := rs))
    case PickColors(c, b) => HandleGui(s.(gui := s.gui.(color := c, bkgColor := b)))
  }

  /** The timer table is consistent: every pending timeout is the one whose
      id `this.timeout` holds, and that id was handed out. */
  predicate TimersConsistent(t: Timers)
  {
    && NoTimer < t.nextId
    && t.handle < t.nextId
    && forall id :: id in t.pending ==> id == t.handle && id != NoTimer
  }

  /** The invariant of every reachable state. */
  predicate Inv(s: CubeState)
  {
    && SliderRanges(s.gui)
    && (s.distortionCoef == InitialDistortionCoef || s.distortionCoef == HoverDistortionCoef
        || s.distortionCoef == ReleaseDistortionCoef)
    && s.rotationSpeedCoef == RotationSpeedCoef
    && 0.0 <= s.distortion <= DistortionCap && 0.0 <= s.distortionTarget <= DistortionCap
    && 0.0 <= s.rotationSpeed <= RotationSpeedCap && 0.0 <= s.rotationSpeedTarget <= RotationSpeedCap
    && 0.0 <= s.cubeRotation
    && TimersConsistent(s.timers)
    && (!s.listening ==> s.timers.pending == {})
  }

  /** The state after a sequence of events. */
  function Run(s: CubeState, events: seq<Event>): CubeState
    requires Inv(s)
    requires forall k :: 0 <= k < |events| ==> WellFormed(events[k])
    decreases |events|
  {
    if events == [] then s
    else
      var next := Step(s, events[0]);
      StepPreservesInv(s, events[0]);
      Run(next, events[1..])
  }

  /** Every event keeps the invariant. */
  lemma StepPreservesInv(s: CubeState, e: Event)
    requires Inv(s) && WellFormed(e)
    ensures Inv(Step(s, e))
  {
    EaseApproaches(s.distortion, s.distortionTarget, s.distortionCoef);
    EaseApproaches(s.rotationSpeed, s.rotationSpeedTarget, s.rotationSpeedCoef);
  }
}

=== FILE: animation_proofs.dfy ===
/** Properties of runs of the page: the invariant every reachable state
    keeps, the click cooldown, the saturation of repeated clicks, the
    steady advance of the rotation angle and the geometric convergence of
    the eased values. */
module AnimationProofs {
  import opened Wrappers
  import opened Helpers
  import HexColor
  import opened Animation

  /** The page starts in a state of the invariant, with or without WebGL. */
  lemma InitEstablishesInv(webglAvailable: bool)
    ensures Inv(Init(webglAvailable))
  {
  }

  /** Every state reached from one of the invariant keeps it. */
  lemma {:induction false} RunPreservesInv(s: CubeState, events: seq<Event>)
    requires Inv(s)
    requires forall k :: 0 <= k < |events| ==> WellFormed(events[k])
    ensures Inv(Run(s, events))
    decreases |events|
  {
    if events != [] {
      StepPreservesInv(s, events[0]);
      RunPreservesInv(Step(s, events[0]), events[1..]);
    }
  }

  /** Under the invariant at most one cooldown timeout is pending, and it is
      the one `this.timeout` holds. */
  lemma AtMostOneTimer(s: CubeState)
    requires Inv(s)
    ensures s.timers.pending <= {s.timers.handle}
    ensures |s.timers.pending| <= 1
  {
    assert s.timers.pending <= {s.timers.handle};
    if s.timers.pending != {} {
      assert s.timers.pending == {s.timers.handle};
    }
  }

  /** Whatever the user does, the page never has two cooldown timeouts
      pending at once. */
  lemma RunKeepsOneTimer(webglAvailable: bool, events: seq<Event>)
    requires forall k :: 0 <= k < |events| ==> WellFormed(events[k])
    ensures |Run(Init(webglAvailable), events).timers.pending| <= 1
  {
    InitEstablishesInv(webglAvailable);
    RunPreservesInv(Init(webglAvailable), events);
    AtMostOneTimer(Run(Init(webglAvailable), events));
  }

  /** Two clicks in a row: the first click's timeout is cancelled, so only
      the second one's `afterClick` can ever run, and the first id firing
      changes nothing. */
  lemma ClickDebounce(s: CubeState)
    requires Inv(s) && s.listening
    ensures var s1 := Step(s, Click);
            var s2 := Step(s1, Click);
            && s2.timers.pending == {s2.timers.handle}
            && s1.timers.handle != s2.timers.handle
            && TimerFires(s2, s1.timers.handle) == s2
  {
    var s1 := Step(s, Click);
    StepPreservesInv(s, Click);
    var s2 := Step(s1, Click);
    assert s2.timers.pending == (s1.timers.pending - {s1.timers.handle}) + {s2.timers.handle};
    assert s1.timers.pending <= {s1.timers.handle};
  }

  /** Leaving the overlay cancels the pending cooldown, so `afterClick`
      cannot retarget the values after the mouse has gone. */
  lemma LeaveCancelsCooldown(s: CubeState)
    requires Inv(s) && s.listening
    ensures Step(s, Leave).timers.pending == {}
    ensures Step(s, Leave).distortionTarget == 0.0
    ensures Step(s, Leave).rotationSpeedTarget == IdleRotationSpeed
  {
    AtMostOneTimer(s);
    assert s.timers.pending - {s.timers.handle} == {};
  }

  /** The cooldown runs `afterClick` once: the values are retargeted to the
      hover options with the slow coefficient, and nothing stays pending. */
  lemma CooldownRetargets(s: CubeState)
    requires Inv(s) && s.listening
    ensures var s1 := Step(s, Click);
            var s2 := Step(s1, TimerFired(s1.timers.handle));
            && s2.distortionTarget == s.gui.distortion
            && s2.rotationSpeedTarget == s.gui.rotationSpeed
            && s2.distortionCoef == ReleaseDistortionCoef
            && s2.timers.pending == {}
  {
    var s1 := Step(s, Click);
    StepPreservesInv(s, Click);
    AtMostOneTimer(s1);
  }

  /** `n` clicks in a row. */
  function Clicks(n: nat): (r: seq<Event>)
    ensures |r| == n && forall k :: 0 <= k < n ==> r[k] == Click
  {
    seq(n, k => Click)
  }

  /** Repeated clicks raise distortion by 1 and rotation speed by 30 each,
      until they saturate at 3 and 100; the targets follow the values. */
  lemma {:induction false} ClicksSaturate(s: CubeState, n: nat)
    requires Inv(s) && s.listening
    ensures var r := Run(s, Clicks(n));
            && r.distortion == (if n == 0 then s.distortion else Min(DistortionCap, s.distortion + n as real))
            && r.rotationSpeed == (if n == 0 then s.rotationSpeed else Min(RotationSpeedCap, s.rotationSpeed + 30.0 * n as real))
            && (n > 0 ==> r.distortionTarget == r.distortion && r.rotationSpeedTarget == r.rotationSpeed)
            && r.listening
    decreases n
  {
    if n > 0 {
      var s1 := Step(s, Click);
      StepPreservesInv(s, Click);
      assert Clicks(n)[1..] == Clicks(n - 1);
      assert Run(s, Clicks(n)) == Run(s1, Clicks(n - 1));
      ClicksSaturate(s1, n - 1);
    }
  }

  /** The rotation angle never goes backwards, and only a completed frame
      moves it: by the rotation speed's target over 2000, since the rotation
      speed snaps to its target. */
  lemma StepAdvancesRotation(s: CubeState, e: Event)
    requires Inv(s) && WellFormed(e)
    ensures s.cubeRotation <= Step(s, e).cubeRotation
    ensures !e.AnimationFrame? ==> Step(s, e).cubeRotation == s.cubeRotation
    ensures e.AnimationFrame? && s.looping && s.color.Some? ==>
      Step(s, e).cubeRotation == s.cubeRotation + s.rotationSpeedTarget / RotationDivisor
  {
  }

  /** With a coefficient of 1 the rotation speed reaches its target in one
      frame, whatever it was. */
  lemma RotationSpeedSnaps(s: CubeState, now: real)
    requires Inv(s)
    ensures Render(s, now).state.rotationSpeed == s.rotationSpeedTarget
  {
  }

  /** A colour the parser rejects makes the next frame throw: the angle
      stays, no further frame is requested, and later frames change nothing. */
  lemma BadColorStopsLoop(s: CubeState, color: string, bkgColor: string, now: real, later: real)
    requires Inv(s) && s.looping
    requires !HexColor.MatchesHexColor(color)
    ensures var s1 := Step(s, PickColors(color, bkgColor));
            var s2 := Step(s1, AnimationFrame(now));
            && !s2.looping
            && s2.cubeRotation == s.cubeRotation
            && Step(s2, AnimationFrame(later)) == s2
  {
  }

  /** `k` to the power `n`. */
  function Pow(k: real, n: nat): real
  {
    if n == 0 then 1.0 else k * Pow(k, n - 1)
  }

  /** `n` easing steps toward a fixed target with a fixed coefficient. */
  function EaseSteps(x: real, target: real, coef: real, n: nat): real
    decreases n
  {
    if n == 0 then x else EaseSteps(Ease(x, target, coef), target, coef, n - 1)
  }

  /** Easing is geometric: after `n` steps the gap to the target is the
      initial gap times `(1 - coef)^n`. */
  lemma {:induction false} EaseStepsGap(x: real, target: real, coef: real, n: nat)
    ensures EaseSteps(x, target, coef, n) - target == Pow(1.0 - coef, n) * (x - target)
    decreases n
  {
    if n > 0 {
      var q := 1.0 - coef;
      var y := Ease(x, target, coef);
      assert y - target == q * (x - target);
      EaseStepsGap(y, target, coef, n - 1);
      assert EaseSteps(x, target, coef, n) == EaseSteps(y, target, coef, n - 1);
      MulAssoc(Pow(q, n - 1), q, x - target, y - target, Pow(q, n));
    }
  }

  /** `p * (q * g) == (q * p) * g`, with `e` standing for `q * g` and `f`
      for `q * p`. */
  lemma MulAssoc(p: real, q: real, g: real, e: real, f: real)
    requires e == q * g && f == q * p
    ensures p * e == f * g
  {
  }

  /** Powers of a factor in [0, 1] stay in [0, 1] and shrink as `n` grows. */
  lemma {:induction false} PowShrinks(k: real, n: nat, m: nat)
    requires 0.0 <= k <= 1.0 && m <= n
    ensures 0.0 <= Pow(k, n) <= Pow(k, m) <= 1.0
    decreases n
  {
    if n > 0 {
      PowShrinks(k, n - 1, if m == n then n - 1 else m);
      PowStep(k, n - 1);
    }
  }

  /** One more factor in [0, 1] keeps a power in [0, its old value]. */
  lemma PowStep(k: real, n: nat)
    requires 0.0 <= k <= 1.0 && 0.0 <= Pow(k, n)
    ensures 0.0 <= Pow(k, n + 1) <= Pow(k, n)
  {
    ScaleBounds(Pow(k, n), k);
    assert Pow(k, n + 1) == Scale(Pow(k, n), k);
  }

  /** A run of frames only. */
  predicate FramesOnly(events: seq<Event>)
  {
    forall k :: 0 <= k < |events| ==> events[k].AnimationFrame?
  }

  /** A run of frames eases distortion exactly `n` times toward its fixed
      target, leaves the targets and coefficients alone, and, after at least
      one frame, holds the rotation speed at its target. */
  lemma {:induction false} FramesEase(s: CubeState, events: seq<Event>)
    requires Inv(s) && s.looping && s.color.Some? && FramesOnly(events)
    ensures var r := Run(s, events);
            && r.distortion == EaseSteps(s.distortion, s.distortionTarget, s.distortionCoef, |events|)
            && r.distortionTarget == s.distortionTarget && r.distortionCoef == s.distortionCoef
            && r.rotationSpeedTarget == s.rotationSpeedTarget
            && (|events| > 0 ==> r.rotationSpeed == s.rotationSpeedTarget)
            && r.looping && r.color == s.color
    decreases |events|
  {
    if events != [] {
      var s1 := Step(s, events[0]);
      StepPreservesInv(s, events[0]);
      assert FramesOnly(events[1..]) by {
        forall k | 0 <= k < |events[1..]| ensures events[1..][k].AnimationFrame? {
          assert events[1..][k] == events[k + 1];
        }
      }
      FramesEase(s1, events[1..]);
      if |events| > 1 {
        assert Run(s1, events[1..]).rotationSpeed == s.rotationSpeedTarget;
      } else {
        assert events[1..] == [];
      }
    }
  }

  /** After hovering, five frames close at least nine tenths of the gap
      between the distortion and the hover amplitude, whatever it was. */
  lemma HoverSettles(s: CubeState, events: seq<Event>)
    requires Inv(s) && s.looping && s.listening && s.color.Some? && FramesOnly(events)
    requires |events| >= 5
    ensures var r := Run(Step(s, Enter), events);
            && Abs(r.distortion - s.gui.distortion) <= Abs(s.distortion - s.gui.distortion) / 10.0
            && r.rotationSpeed == s.gui.rotationSpeed
  {
    StepPreservesInv(s, Enter);
    FramesEase(Step(s, Enter), events);
    HoverEaseSettles(s.distortion, s.gui.distortion, |events|);
  }

  /** Five or more steps with the hover coefficient 0.4 shrink the gap to
      a tenth or less: 0.6^5 is below 0.1. */
  lemma HoverEaseSettles(x: real, target: real, n: nat)
    requires n >= 5
    ensures Abs(EaseSteps(x, target, HoverDistortionCoef, n) - target) <= Abs(x - target) / 10.0
  {
    EaseStepsGap(x, target, HoverDistortionCoef, n);
    var p := Pow(0.6, n);
    assert EaseSteps(x, target, HoverDistortionCoef, n) - target == p * (x - target);
    PowShrinks(0.6, n, 5);
    assert Pow(0.6, 5) <= 0.1;
    ShrinkAbs(p, x - target, EaseSteps(x, target, HoverDistortionCoef, n) - target);
  }

  /** A factor in [0, 1/10] shrinks a number to a tenth of its size or
      less; `e` stands for the product `p * g`. */
  lemma ShrinkAbs(p: real, g: real, e: real)
    requires 0.0 <= p <= 0.1 && e == p * g
    ensures Abs(e) <= Abs(g) / 10.0
  {
    if g < 0.0 {
      assert e - g / 10.0 == (0.1 - p) * (-g);
    } else {
      assert g / 10.0 - e == (0.1 - p) * g;
    }
  }
}

=== FILE: geometry.dfy ===
/** The static geometry `initBuffers(gl, index)` of app/js/cube.js builds
    for each cube: 24 vertices (4 per face, 6 faces), one RGBA colour per
    vertex, one normal per vertex, and 36 indices drawing each face as two
    triangles. The buffers are the flat number arrays handed to WebGL; the
    uploads themselves are not modelled. */
module Geometry {

  datatype Vec3 = Vec3(x: real, y: real, z: real)

  datatype Rgba = Rgba(r: real, g: real, b: real, a: real)

  /** The arrays `initBuffers` returns, before they become GPU buffers:
      positions (x, y, z per vertex), colours (r, g, b, a per vertex),
      normals (x, y, z per vertex), and the two identical index arrays. */
  datatype CubeBuffers = CubeBuffers(
    positions: seq<real>,
    colors: seq<real>,
    normals: seq<real>,
    indices: seq<nat>,
    indices2: seq<nat>)

  /** `nbCubes`: the number of cubes built and drawn. */
  const CubeCount: nat := 3

  const VertexCount: nat := 24

  /** `vertexCount` in `drawScene`: 12 triangles of 3 indices. */
  const IndexCount: nat := 36

  /** Distance between neighbouring cubes along x (`offset = index * 3`). */
  const Spacing: real := 3.0

  /** Left and right x of cube `index`: `x1 = -1 + offset`, `x2 = 1 + offset`. */
  function Left(index: int): real
  {
    -1.0 + index as real * Spacing
  }

  function Right(index: int): real
  {
    1.0 + index as real * Spacing
  }

  /** The centre of cube `index`. */
  function Centre(index: int): (c: Vec3)
    ensures c.x == (Left(index) + Right(index)) / 2.0
  {
    Vec3(index as real * Spacing, 0.0, 0.0)
  }

  /** The 24 vertices in the order of the `positions` table: front, back,
      top, bottom, right, left, four vertices each. */
  function CubeVertices(index: int): (vs: seq<Vec3>)
    ensures |vs| == VertexCount
  {
    var x1, x2 := Left(index), Right(index);
    var z1, z2 := -1.0, 1.0;
    [ // front
      Vec3(x1, -1.0, z2), Vec3(x2, -1.0, z2), Vec3(x2, 1.0, z2), Vec3(x1, 1.0, z2),
      // back
      Vec3(x1, -1.0, z1), Vec3(x1, 1.0, z1), Vec3(x2, 1.0, z1), Vec3(x2, -1.0, z1),
      // top
      Vec3(x1, 1.0, z1), Vec3(x1, 1.0, z2), Vec3(x2, 1.0, z2), Vec3(x2, 1.0, z1),
      // bottom
      Vec3(x1, -1.0, z1), Vec3(x2, -1.0, z1), Vec3(x2, -1.0, z2), Vec3(x1, -1.0, z2),
      // right
      Vec3(x2, -1.0, z1), Vec3(x2, 1.0, z1), Vec3(x2, 1.0, z2), Vec3(x2, -1.0, z2),
      // left
      Vec3(x1, -1.0, z1), Vec3(x1, -1.0, z2), Vec3(x1, 1.0, z2), Vec3(x1, 1.0, z1) ]
  }

  /** The colour every vertex of cube `index` gets: `(index / 3, 0, 1, 0.4)`. */
  function CubeColor(index: int): Rgba
  {
    Rgba(index as real / 3.0, 0.0, 1.0, 0.4)
  }

  /** The `colors` table: the cube colour repeated for all 24 vertices. */
  function CubeColors(index: int): (cs: seq<Rgba>)
    ensures |cs| == VertexCount
  {
    seq(VertexCount, k => CubeColor(index))
  }

  /** The `vertexNormals` table, face by face in the vertex order. */
  function VertexNormals(): (ns: seq<Vec3>)
    ensures |ns| == VertexCount
  {
    [ Vec3(0.0, 0.0, 1.0), Vec3(0.0, 0.0, 1.0), Vec3(0.0, 0.0, 1.0), Vec3(0.0, 0.0, 1.0),
      Vec3(0.0, 0.0, -1.0), Vec3(0.0, 0.0, -1.0), Vec3(0.0, 0.0, -1.0), Vec3(0.0, 0.0, -1.0),
      Vec3(0.0, 1.0, 0.0), Vec3(0.0, 1.0, 0.0), Vec3(0.0, 1.0, 0.0), Vec3(0.0, 1.0, 0.0),
      Vec3(0.0, -1.0, 0.0), Vec3(0.0, -1.0, 0.0), Vec3(0.0, -1.0, 0.0), Vec3(0.0, -1.0, 0.0),
      Vec3(1.0, 0.0, 0.0), Vec3(1.0, 0.0, 0.0), Vec3(1.0, 0.0, 0.0), Vec3(1.0, 0.0, 0.0),
      Vec3(-1.0, 0.0, 0.0), Vec3(-1.0, 0.0, 0.0), Vec3(-1.0, 0.0, 0.0), Vec3(-1.0, 0.0, 0.0) ]
  }

  /** The `indices` table: each face as the triangles (0, 1, 2) and
      (0, 2, 3) of its four vertices. */
  function TriangleIndices(): (ix: seq<nat>)
    ensures |ix| == IndexCount
    ensures forall k :: 0 <= k < |ix| ==> ix[k] < VertexCount
  {
    [ 0, 1, 2, 0, 2, 3,        // front
      4, 5, 6, 4, 6, 7,        // back
      8, 9, 10, 8, 10, 11,     // top
      12, 13, 14, 12, 14, 15,  // bottom
      16, 17, 18, 16, 18, 19,  // right
      20, 21, 22, 20, 22, 23 ] // left
  }

  /** Coordinate `m` (0 = x, 1 = y, 2 = z) of a vector. */
  function Coord(v: Vec3, m: nat): real
    requires m < 3
  {
    if m == 0 then v.x else if m == 1 then v.y else v.z
  }

  /** Channel `m` (0 = r, 1 = g, 2 = b, 3 = a) of a colour. */
  function ChannelOf(c: Rgba, m: nat): real
    requires m < 4
  {
    if m == 0 then c.r else if m == 1 then c.g else if m == 2 then c.b else c.a
  }

  /** Lays vectors out as consecutive x, y, z numbers: number `k` is
      coordinate `k % 3` of vector `k / 3`. */
  function Flatten3(vs: seq<Vec3>): (r: seq<real>)
    ensures |r| == 3 * |vs|
    ensures forall k :: 0 <= k < |r| ==> r[k] == Coord(vs[k / 3], k % 3)
  {
    seq(3 * |vs|, k requires 0 <= k < 3 * |vs| => Coord(vs[k / 3], k % 3))
  }

  /** Lays colours out as consecutive r, g, b, a numbers: number `k` is
      channel `k % 4` of colour `k / 4`. */
  function Flatten4(cs: seq<Rgba>): (r: seq<real>)
    ensures |r| == 4 * |cs|
    ensures forall k :: 0 <= k < |r| ==> r[k] == ChannelOf(cs[k / 4], k % 4)
  {
    seq(4 * |cs|, k requires 0 <= k < 4 * |cs| => ChannelOf(cs[k / 4], k % 4))
  }

  /** `initBuffers(gl, index)`, without the uploads. */
  function InitBuffers(index: int): (b: CubeBuffers)
    ensures |b.positions| == 3 * VertexCount && |b.colors| == 4 * VertexCount
    ensures |b.normals| == 3 * VertexCount && |b.indices| == IndexCount
    ensures b.indices2 == b.indices
  {
    CubeBuffers(
      Flatten3(CubeVertices(index)),
      Flatten4(CubeColors(index)),
      Flatten3(VertexNormals()),
      TriangleIndices(),
      TriangleIndices())
  }

  /** The loop of `init`: one set of buffers per cube, in index order. */
  function AllCubes(): (cubes: seq<CubeBuffers>)
    ensures |cubes| == CubeCount
    ensures forall i :: 0 <= i < |cubes| ==> cubes[i] == InitBuffers(i)
  {
    seq(CubeCount, i => InitBuffers(i))
  }

  // ---------------------------------------------------------------------
  // Shape and range of the tables

  /** A corner of the box `[Left, Right] x [-1, 1] x [-1, 1]` of cube `index`. */
  predicate IsCorner(index: int, v: Vec3)
  {
    && (v.x == Left(index) || v.x == Right(index))
    && (v.y == -1.0 || v.y == 1.0)
    && (v.z == -1.0 || v.z == 1.0)
  }

  /** Every vertex of cube `index` is a corner of its box. */
  lemma VerticesAreCorners(index: int)
    ensures forall j :: 0 <= j < VertexCount ==> IsCorner(index, CubeVertices(index)[j])
  {
  }

  /** Every x in the position buffer of cube `index` is `-1 + 3 index` or
      `1 + 3 index`, and every y and z is -1 or 1: the cube spans
      `[-1 + 3 index, 1 + 3 index] x [-1, 1] x [-1, 1]`. */
  lemma PositionsSpanCube(index: int)
    ensures var p := InitBuffers(index).positions;
      forall k :: 0 <= k < |p| ==>
        (k % 3 == 0 ==> p[k] == Left(index) || p[k] == Right(index)) &&
        (k % 3 != 0 ==> p[k] == -1.0 || p[k] == 1.0)
  {
    VerticesAreCorners(index);
    FlattenCorners(index, CubeVertices(index));
  }

  /** Flattening a list of corners of cube `index` gives numbers that are
      the box's x bounds at x positions and -1 or 1 elsewhere. */
  lemma FlattenCorners(index: int, vs: seq<Vec3>)
    requires forall j :: 0 <= j < |vs| ==> IsCorner(index, vs[j])
    ensures var p := Flatten3(vs);
      forall k :: 0 <= k < |p| ==>
        (k % 3 == 0 ==> p[k] == Left(index) || p[k] == Right(index)) &&
        (k % 3 != 0 ==> p[k] == -1.0 || p[k] == 1.0)
  {
    var p := Flatten3(vs);
    forall k | 0 <= k < |p|
      ensures k % 3 == 0 ==> p[k] == Left(index) || p[k] == Right(index)
      ensures k % 3 != 0 ==> p[k] == -1.0 || p[k] == 1.0
    {
      assert p[k] == Coord(vs[k / 3], k % 3);
      assert IsCorner(index, vs[k / 3]);
    }
  }

  /** Every vertex gets the cube colour: red `index / 3`, green 0, blue 1,
      alpha 0.4. */
  lemma ColorsAreCubeColor(index: int)
    ensures var c := InitBuffers(index).colors;
      forall k :: 0 <= k < |c| ==>
        c[k] == (if k % 4 == 0 then index as real / 3.0 else if k % 4 == 1 then 0.0
                 else if k % 4 == 2 then 1.0 else 0.4)
  {
  }

  /** A unit vector along one axis, in either direction. */
  predicate IsUnitAxis(n: Vec3)
  {
    || ((n.x == 1.0 || n.x == -1.0) && n.y == 0.0 && n.z == 0.0)
    || (n.x == 0.0 && (n.y == 1.0 || n.y == -1.0) && n.z == 0.0)
    || (n.x == 0.0 && n.y == 0.0 && (n.z == 1.0 || n.z == -1.0))
  }

  /** Every normal is a unit axis vector. */
  lemma NormalsAreUnitAxes()
    ensures forall k :: 0 <= k < |VertexNormals()| ==> IsUnitAxis(VertexNormals()[k])
  {
  }

  function Sub(a: Vec3, b: Vec3): Vec3
  {
    Vec3(a.x - b.x, a.y - b.y, a.z - b.z)
  }

  function Dot(a: Vec3, b: Vec3): real
  {
    a.x * b.x + a.y * b.y + a.z * b.z
  }

  function Cross(a: Vec3, b: Vec3): Vec3
  {
    Vec3(a.y * b.z - a.z * b.y, a.z * b.x - a.x * b.z, a.x * b.y - a.y * b.x)
  }

  /** Each vertex is a corner of the 2 x 2 x 2 cube around `Centre(index)`,
      and its normal points out through the face it belongs to: the
      vertex lies one unit from the centre along its normal. */
  lemma NormalsMatchFaces(index: int)
    ensures var vs, ns := CubeVertices(index), VertexNormals();
      forall k :: 0 <= k < VertexCount ==>
        var d := Sub(vs[k], Centre(index));
        && (d.x == -1.0 || d.x == 1.0) && (d.y == -1.0 || d.y == 1.0) && (d.z == -1.0 || d.z == 1.0)
        && Dot(ns[k], d) == 1.0
  {
    var vs, ns := CubeVertices(index), VertexNormals();
    forall k | 0 <= k < VertexCount
      ensures var d := Sub(vs[k], Centre(index));
        && (d.x == -1.0 || d.x == 1.0) && (d.y == -1.0 || d.y == 1.0) && (d.z == -1.0 || d.z == 1.0)
        && Dot(ns[k], d) == 1.0
    {
      // face by face
      assert k < 4 || k < 8 || k < 12 || k < 16 || k < 20 || k < 24;
    }
  }

  /** The indices stay below 24 (and so fit the `Uint16Array` they are
      stored in), the six indices of face `f` name only that face's
      vertices `4f .. 4f + 3`, and every vertex is drawn. */
  lemma FacesUseOwnVertices()
    ensures var ix := TriangleIndices();
      && (forall k :: 0 <= k < |ix| ==> ix[k] < VertexCount && ix[k] / 4 == k / 6)
      && (forall v :: 0 <= v < VertexCount ==> v in ix)
  {
  }

  /** Twice the signed area of triangle `abc` seen along `n`: positive
      when the triangle winds counter-clockwise seen from where `n` points. */
  function TriangleWinding(a: Vec3, b: Vec3, c: Vec3, n: Vec3): real
  {
    Dot(Cross(Sub(b, a), Sub(c, a)), n)
  }

  /** The winding of triangle `t` of cube `index`, seen along the normal of
      its first vertex. */
  function Winding(index: int, t: nat): real
    requires t < IndexCount / 3
  {
    var vs, ns, ix := CubeVertices(index), VertexNormals(), TriangleIndices();
    TriangleWinding(vs[ix[3 * t]], vs[ix[3 * t + 1]], vs[ix[3 * t + 2]], ns[ix[3 * t]])
  }

  /** All 12 triangles wind counter-clockwise seen from outside, so
      culling the front faces leaves exactly the inner side and culling the
      back faces exactly the outer side. */
  lemma TrianglesFaceOutward(index: int)
    ensures forall t :: 0 <= t < IndexCount / 3 ==> Winding(index, t) == 4.0
  {
    Triangle0Outward(index);
    Triangle1Outward(index);
    Triangle2Outward(index);
    Triangle3Outward(index);
    Triangle4Outward(index);
    Triangle5Outward(index);
    Triangle6Outward(index);
    Triangle7Outward(index);
    Triangle8Outward(index);
    Triangle9Outward(index);
    Triangle10Outward(index);
    Triangle11Outward(index);
    forall t | 0 <= t < IndexCount / 3
      ensures Winding(index, t) == 4.0
    {
      assert t == 0 || t == 1 || t == 2 || t == 3 || t == 4 || t == 5 ||
             t == 6 || t == 7 || t == 8 || t == 9 || t == 10 || t == 11;
    }
  }

  // One lemma per triangle: each unfolds only its own three vertices and
  // normal. A single proof over all twelve triangles makes the solver
  // unfold every table entry at once and runs out of resource on some
  // random seeds.

  /** The first triangle of the front face winds outward. */
  lemma Triangle0Outward(index: int)
    ensures Winding(index, 0) == 4.0
  {
    var vs, ns, ix := CubeVertices(index), VertexNormals(), TriangleIndices();
    assert ix[0] == 0 && ix[1] == 1 && ix[2] == 2;
    assert vs[0] == Vec3(Left(index), -1.0, 1.0);
    assert vs[1] == Vec3(Right(index), -1.0, 1.0);
    assert vs[2] == Vec3(Right(index), 1.0, 1.0);
    assert ns[0] == Vec3(0.0, 0.0, 1.0);
  }

  /** The second triangle of the front face winds outward. */
  lemma Triangle1Outward(index: int)
    ensures Winding(index, 1) == 4.0
  {
    var vs, ns, ix := CubeVertices(index), VertexNormals(), TriangleIndices();
    assert ix[3] == 0 && ix[4] == 2 && ix[5] == 3;
    assert vs[0] == Vec3(Left(index), -1.0, 1.0);
    assert vs[2] == Vec3(Right(index), 1.0, 1.0);
    assert vs[3] == Vec3(Left(index), 1.0, 1.0);
    assert ns[0] == Vec3(0.0, 0.0, 1.0);
  }

  /** The first triangle of the back face winds outward. */
  lemma Triangle2Outward(index: int)
    ensures Winding(index, 2) == 4.0
  {
    var vs, ns, ix := CubeVertices(index), VertexNormals(), TriangleIndices();
    assert ix[6] == 4 && ix[7] == 5 && ix[8] == 6;
    assert vs[4] == Vec3(Left(index), -1.0, -1.0);
    assert vs[5] == Vec3(Left(index), 1.0, -1.0);
    assert vs[6] == Vec3(Right(index), 1.0, -1.0);
    assert ns[4] == Vec3(0.0, 0.0, -1.0);
  }

  /** The second triangle of the back face winds outward. */
  lemma Triangle3Outward(index: int)
    ensures Winding(index, 3) == 4.0
  {
    var vs, ns, ix := CubeVertices(index), VertexNormals(), TriangleIndices();
    assert ix[9] == 4 && ix[10] == 6 && ix[11] == 7;
    assert vs[4] == Vec3(Left(index), -1.0, -1.0);
    assert vs[6] == Vec3(Right(index), 1.0, -1.0);
    assert vs[7] == Vec3(Right(index), -1.0, -1.0);
    assert ns[4] == Vec3(0.0, 0.0, -1.0);
  }

  /** The first triangle of the top face winds outward. */
  lemma Triangle4Outward(index: int)
    ensures Winding(index, 4) == 4.0
  {
    var vs, ns, ix := CubeVertices(index), VertexNormals(), TriangleIndices();
    assert ix[12] == 8 && ix[13] == 9 && ix[14] == 10;
    assert vs[8] == Vec3(Left(index), 1.0, -1.0);
    assert vs[9] == Vec3(Left(index), 1.0, 1.0);
    assert vs[10] == Vec3(Right(index), 1.0, 1.0);
    assert ns[8] == Vec3(0.0, 1.0, 0.0);
  }

  /** The second triangle of the top face winds outward. */
  lemma Triangle5Outward(index: int)
    ensures Winding(index, 5) == 4.0
  {
    var vs, ns, ix := CubeVertices(index), VertexNormals(), TriangleIndices();
    assert ix[15] == 8 && ix[16] == 10 && ix[17] == 11;
    assert vs[8] == Vec3(Left(index), 1.0, -1.0);
    assert vs[10] == Vec3(Right(index), 1.0, 1.0);
    assert vs[11] == Vec3(Right(index), 1.0, -1.0);
    assert ns[8] == Vec3(0.0, 1.0, 0.0);
  }

  /** The first triangle of the bottom face winds outward. */
  lemma Triangle6Outward(index: int)
    ensures Winding(index, 6) == 4.0
  {
    var vs, ns, ix := CubeVertices(index), VertexNormals(), TriangleIndices();
    assert ix[18] == 12 && ix[19] == 13 && ix[20] == 14;
    assert vs[12] == Vec3(Left(index), -1.0, -1.0);
    assert vs[13] == Vec3(Right(index), -1.0, -1.0);
    assert vs[14] == Vec3(Right(index), -1.0, 1.0);
    assert ns[12] == Vec3(0.0, -1.0, 0.0);
  }

  /** The second triangle of the bottom face winds outward. */
  lemma Triangle7Outward(index: int)
    ensures Winding(index, 7) == 4.0
  {
    var vs, ns, ix := CubeVertices(index), VertexNormals(), TriangleIndices();
    assert ix[21] == 12 && ix[22] == 14 && ix[23] == 15;
    assert vs[12] == Vec3(Left(index), -1.0, -1.0);
    assert vs[14] == Vec3(Right(index), -1.0, 1.0);
    assert vs[15] == Vec3(Left(index), -1.0, 1.0);
    assert ns[12] == Vec3(0.0, -1.0, 0.0);
  }

  /** The first triangle of the right face winds outward. */
  lemma Triangle8Outward(index: int)
    ensures Winding(index, 8) == 4.0
  {
    var vs, ns, ix := CubeVertices(index), VertexNormals(), TriangleIndices();
    assert ix[24] == 16 && ix[25] == 17 && ix[26] == 18;
    assert vs[16] == Vec3(Right(index), -1.0, -1.0);
    assert vs[17] == Vec3(Right(index), 1.0, -1.0);
    assert vs[18] == Vec3(Right(index), 1.0, 1.0);
    assert ns[16] == Vec3(1.0, 0.0, 0.0);
  }

  /** The second triangle of the right face winds outward. */
  lemma Triangle9Outward(index: int)
    ensures Winding(index, 9) == 4.0
  {
    var vs, ns, ix := CubeVertices(index), VertexNormals(), TriangleIndices();
    assert ix[27] == 16 && ix[28] == 18 && ix[29] == 19;
    assert vs[16] == Vec3(Right(index), -1.0, -1.0);
    assert vs[18] == Vec3(Right(index), 1.0, 1.0);
    assert vs[19] == Vec3(Right(index), -1.0, 1.0);
    assert ns[16] == Vec3(1.0, 0.0, 0.0);
  }

  /** The first triangle of the left face winds outward. */
  lemma Triangle10Outward(index: int)
    ensures Winding(index, 10) == 4.0
  {
    var vs, ns, ix := CubeVertices(index), VertexNormals(), TriangleIndices();
    assert ix[30] == 20 && ix[31] == 21 && ix[32] == 22;
    assert vs[20] == Vec3(Left(index), -1.0, -1.0);
    assert vs[21] == Vec3(Left(index), -1.0, 1.0);
    assert vs[22] == Vec3(Left(index), 1.0, 1.0);
    assert ns[20] == Vec3(-1.0, 0.0, 0.0);
  }

  /** The second triangle of the left face winds outward. */
  lemma Triangle11Outward(index: int)
    ensures Winding(index, 11) == 4.0
  {
    var vs, ns, ix := CubeVertices(index), VertexNormals(), TriangleIndices();
    assert ix[33] == 20 && ix[34] == 22 && ix[35] == 23;
    assert vs[20] == Vec3(Left(index), -1.0, -1.0);
    assert vs[22] == Vec3(Left(index), 1.0, 1.0);
    assert vs[23] == Vec3(Left(index), 1.0, -1.0);
    assert ns[20] == Vec3(-1.0, 0.0, 0.0);
  }

  /** The cubes differ only in the x of their positions, shifted by 3 per
      index, and the red channel of their colours: normals and indices
      are shared. */
  lemma CubesDifferOnlyInOffsetAndRed(i: int, j: int)
    ensures var a, b := InitBuffers(i), InitBuffers(j);
      && a.normals == b.normals && a.indices == b.indices
      && (forall k :: 0 <= k < |a.positions| ==>
            b.positions[k] == a.positions[k] + (if k % 3 == 0 then (j - i) as real * Spacing else 0.0))
      && (forall k :: 0 <= k < |a.colors| ==>
            b.colors[k] == a.colors[k] + (if k % 4 == 0 then (j - i) as real / 3.0 else 0.0))
  {
    ShiftedVertices(i, j);
    FlattenShifted(CubeVertices(i), CubeVertices(j), (j - i) as real * Spacing);
  }

  /** Flattening two vertex lists that differ by a shift `d` along x gives
      number lists that differ by `d` at the x positions only. */
  lemma FlattenShifted(va: seq<Vec3>, vb: seq<Vec3>, d: real)
    requires |va| == |vb|
    requires forall m :: 0 <= m < |va| ==> vb[m] == Vec3(va[m].x + d, va[m].y, va[m].z)
    ensures var pa, pb := Flatten3(va), Flatten3(vb);
      forall k :: 0 <= k < |pa| ==> pb[k] == pa[k] + (if k % 3 == 0 then d else 0.0)
  {
    var pa, pb := Flatten3(va), Flatten3(vb);
    forall k | 0 <= k < |pa|
      ensures pb[k] == pa[k] + (if k % 3 == 0 then d else 0.0)
    {
      assert pa[k] == Coord(va[k / 3], k % 3);
      assert pb[k] == Coord(vb[k / 3], k % 3);
    }
  }

  /** Vertex by vertex, cube `j` is cube `i` moved `3 (j - i)` along x. */
  lemma ShiftedVertices(i: int, j: int)
    ensures forall m :: 0 <= m < VertexCount ==>
      CubeVertices(j)[m] == Vec3(CubeVertices(i)[m].x + (j - i) as real * Spacing, CubeVertices(i)[m].y, CubeVertices(i)[m].z)
  {
  }
}

=== FILE: helpers.dfy ===
/** The numeric helpers of app/js/helpers.js: `clamp` and `isPowerOf2`,
    together with the pieces of JavaScript number semantics they rely on
    (`Math.min`, `Math.max`, ToInt32 and the 32-bit bitwise AND). Numbers are
    exact reals or unbounded integers; NaN and infinities are not modelled. */
module Helpers {

  /** `Math.min` on two numbers. */
  function Min(a: real, b: real): (r: real)
    ensures r <= a && r <= b
    ensures r == a || r == b
  {
    if a <= b then a else b
  }

  /** `Math.max` on two numbers. */
  function Max(a: real, b: real): (r: real)
    ensures a <= r && b <= r
    ensures r == a || r == b
  {
    if a <= b then b else a
  }

  /** `clamp(value, min, max)`: raise `value` to at least `lo`, then cap it
      at `hi`. The cap is applied last, so when the bounds are crossed the
      cap wins. */
  function Clamp(value: real, lo: real, hi: real): (r: real)
    ensures r <= hi
    ensures lo <= hi ==> lo <= r <= hi
    ensures lo <= value <= hi ==> r == value
    ensures value < lo && lo <= hi ==> r == lo
    ensures hi < value ==> r == hi
    ensures lo > hi ==> r == hi
  {
    Min(Max(value, lo), hi)
  }

  /** Clamping twice is clamping once, whatever the bounds. */
  lemma ClampIdempotent(value: real, lo: real, hi: real)
    ensures Clamp(Clamp(value, lo, hi), lo, hi) == Clamp(value, lo, hi)
  {
  }

  /** `clamp` is monotone non-decreasing in the value being clamped. */
  lemma ClampMonotone(v: real, w: real, lo: real, hi: real)
    requires v <= w
    ensures Clamp(v, lo, hi) <= Clamp(w, lo, hi)
  {
  }

  // ---------------------------------------------------------------------
  // 32-bit integer semantics of the bitwise operators

  const TwoTo31: int := 0x8000_0000
  const TwoTo32: int := 0x1_0000_0000

  /** ECMAScript ToUint32 on an integral number: the unique value in
      [0, 2^32) congruent to `v` modulo 2^32. */
  function ToUint32(v: int): (r: nat)
    ensures r < TwoTo32
    ensures (v - r) % TwoTo32 == 0
  {
    if 0 <= v < TwoTo32 then v else v % TwoTo32
  }

  /** Reads a 32-bit pattern as a two's-complement signed integer. */
  function FromUint32(u: nat): (r: int)
    requires u < TwoTo32
    ensures -TwoTo31 <= r < TwoTo31
    ensures (u - r) % TwoTo32 == 0
  {
    if u < TwoTo31 then u else u - TwoTo32
  }

  /** ECMAScript ToInt32 on an integral number: the unique value in
      [-2^31, 2^31) congruent to `v` modulo 2^32. */
  function ToInt32(v: int): (r: int)
    ensures -TwoTo31 <= r < TwoTo31
    ensures (v - r) % TwoTo32 == 0
  {
    FromUint32(ToUint32(v))
  }

  /** Bitwise AND of two naturals, bit by bit from the least significant. */
  function BitAnd(a: nat, b: nat): (r: nat)
    ensures r <= a && r <= b
    decreases a
  {
    if a == 0 || b == 0 then 0
    else 2 * BitAnd(a / 2, b / 2) + (if a % 2 == 1 && b % 2 == 1 then 1 else 0)
  }

  /** The JavaScript `a & b` on integral operands: both are converted to
      32-bit patterns, combined bitwise, and read back as a signed int32. */
  function Int32And(a: int, b: int): (r: int)
    ensures -TwoTo31 <= r < TwoTo31
    ensures 0 <= a < TwoTo31 && 0 <= b < TwoTo31 ==> r == BitAnd(a, b)
  {
    FromUint32(BitAnd(ToUint32(a), ToUint32(b)))
  }

  /** JavaScript's conversion of a boolean operand of `&` to a number. */
  function BoolToNumber(b: bool): int
  {
    if b then 1 else 0
  }

  /** `isPowerOf2(value)` exactly as written. The expression
      `value & value - 1 === 0` groups as `value & ((value - 1) === 0)`,
      because `===` binds tighter than `&`; the comparison yields a
      boolean that `&` turns into 0 or 1. The function therefore answers 1
      for the value 1 and 0 for every other integer, powers of two included. */
  function IsPowerOf2(value: int): (r: int)
    ensures r == 1 <==> value == 1
    ensures r == 0 <==> value != 1
  {
    Int32And(value, BoolToNumber(value - 1 == 0))
  }

  /** The input 4 is a power of two, yet the function as written answers 0
      for it, while the intended test answers true. */
  lemma IsPowerOf2MissesFour()
    ensures IsTwoToThePower(4)
    ensures IsPowerOf2(4) == 0
    ensures IsPowerOf2Intended(4)
  {
    assert IsTwoToThePower(2);
    PredecessorAndIsZeroIffPowerOf2(4);
  }

  // ---------------------------------------------------------------------
  // The intended test

  /** Reference notion of a power of two: halving reaches 1 through even
      numbers only. */
  predicate IsTwoToThePower(n: nat)
  {
    n == 1 || (n >= 2 && n % 2 == 0 && IsTwoToThePower(n / 2))
  }

  /** 2 to the power `k`. */
  function Pow2(k: nat): (r: nat)
    ensures r >= 1
  {
    if k == 0 then 1 else 2 * Pow2(k - 1)
  }

  /** Every `2^k` passes the reference test. */
  lemma {:induction false} Pow2IsTwoToThePower(k: nat)
    ensures IsTwoToThePower(Pow2(k))
  {
    if k > 0 {
      Pow2IsTwoToThePower(k - 1);
      assert Pow2(k) / 2 == Pow2(k - 1);
    }
  }

  /** The evidently intended `(value & (value - 1)) === 0`. */
  function IsPowerOf2Intended(value: int): bool
  {
    Int32And(value, value - 1) == 0
  }

  /** Every number that passes the reference test is some `2^k`. */
  lemma {:induction false} Pow2Exponent(n: nat)
    requires IsTwoToThePower(n)
    ensures exists k: nat :: Pow2(k) == n
  {
    if n != 1 {
      Pow2Exponent(n / 2);
      var k: nat :| Pow2(k) == n / 2;
      assert Pow2(k + 1) == n;
    } else {
      assert Pow2(0) == n;
    }
  }

  /** On the positive int32 range the intended test accepts exactly the
      powers of two. */
  lemma IsPowerOf2IntendedCorrect(value: int)
    requires 0 < value < TwoTo31
    ensures IsPowerOf2Intended(value) <==> IsTwoToThePower(value)
    ensures IsPowerOf2Intended(value) <==> exists k: nat :: Pow2(k) == value
  {
    PredecessorAndIsZeroIffPowerOf2(value);
    if IsTwoToThePower(value) {
      Pow2Exponent(value);
    }
    if exists k: nat :: Pow2(k) == value {
      var k: nat :| Pow2(k) == value;
      Pow2IsTwoToThePower(k);
    }
  }

  /** Any number ANDed with itself is unchanged. */
  lemma {:induction false} BitAndSelf(m: nat)
    ensures BitAnd(m, m) == m
  {
    if m != 0 {
      BitAndSelf(m / 2);
    }
  }

  /** For a positive `n`, clearing the lowest set bit (`n & (n - 1)`) gives
      zero exactly when `n` is a power of two. */
  lemma {:induction false} PredecessorAndIsZeroIffPowerOf2(n: nat)
    requires n >= 1
    ensures BitAnd(n, n - 1) == 0 <==> IsTwoToThePower(n)
  {
    if n == 1 {
    } else if n % 2 == 1 {
      var m := n / 2;
      assert m >= 1;
      assert (n - 1) / 2 == m;
      BitAndSelf(m);
      assert BitAnd(n, n - 1) == 2 * m;
    } else {
      var m := n / 2;
      assert m >= 1;
      assert (n - 1) / 2 == m - 1;
      assert BitAnd(n, n - 1) == 2 * BitAnd(m, m - 1);
      PredecessorAndIsZeroIffPowerOf2(m);
    }
  }
}

=== FILE: hex_color.dfy ===
/** `hexToRgbF` of app/js/cube.js: parses a `#rrggbb` colour (the `#` is
    optional, the digits case-insensitive) into three channels in [0, 1],
    or yields null. The regular expression it uses is modelled by the
    predicate `MatchesHexColor`; `parseInt(pair, 16)` by `ParseByte`. */
module HexColor {
  import opened Wrappers

  /** A colour as three floating channels, `{r, g, b}` in the source. */
  datatype Rgb = Rgb(r: real, g: real, b: real)

  predicate InUnitRange(x: real)
  {
    0.0 <= x <= 1.0
  }

  /** Every channel lies in [0, 1]. */
  predicate InUnitCube(c: Rgb)
  {
    InUnitRange(c.r) && InUnitRange(c.g) && InUnitRange(c.b)
  }

  /** The character class `[a-f\d]` under the `i` flag: ASCII decimal
      digits and the letters a to f in either case. */
  predicate IsHexDigit(c: char)
  {
    ('0' <= c <= '9') || ('a' <= c <= 'f') || ('A' <= c <= 'F')
  }

  /** The value of one hexadecimal digit. */
  function DigitValue(c: char): (v: nat)
    requires IsHexDigit(c)
    ensures v < 16
    ensures ('0' <= c <= '9') <==> v < 10
  {
    if '0' <= c <= '9' then c as int - '0' as int
    else if 'a' <= c <= 'f' then c as int - 'a' as int + 10
    else c as int - 'A' as int + 10
  }

  /** `parseInt(pair, 16)` for a pair of hexadecimal digits. */
  function ParseByte(hi: char, lo: char): (b: nat)
    requires IsHexDigit(hi) && IsHexDigit(lo)
    ensures b < 256
    ensures b / 16 == DigitValue(hi) && b % 16 == DigitValue(lo)
  {
    16 * DigitValue(hi) + DigitValue(lo)
  }

  /** Six hexadecimal digits: the three capture groups back to back. */
  predicate IsHexBody(s: string)
  {
    |s| == 6 && forall k :: 0 <= k < |s| ==> IsHexDigit(s[k])
  }

  /** The strings `/^#?([a-f\d]{2})([a-f\d]{2})([a-f\d]{2})$/i` accepts:
      six hexadecimal digits, alone or after one `#`. */
  predicate MatchesHexColor(s: string)
  {
    IsHexBody(s) || (|s| == 7 && s[0] == '#' && IsHexBody(s[1..]))
  }

  /** Channel `k` (0 = red, 1 = green, 2 = blue) of a six-digit body,
      divided by 255. */
  function Channel(body: string, k: nat): (x: real)
    requires IsHexBody(body) && k < 3
    ensures InUnitRange(x)
    ensures x * 255.0 == ParseByte(body[2 * k], body[2 * k + 1]) as real
  {
    ParseByte(body[2 * k], body[2 * k + 1]) as real / 255.0
  }

  /** The body the capture groups see: the string without its optional
      leading `#`. */
  function Body(hex: string): string
  {
    if |hex| > 0 && hex[0] == '#' then hex[1..] else hex
  }

  /** `hexToRgbF(hex)`: `None` stands for the `null` it returns when the
      pattern does not match. */
  function HexToRgbF(hex: string): (r: Option<Rgb>)
    ensures r.Some? <==> MatchesHexColor(hex)
    ensures r.Some? ==> InUnitCube(r.value)
    ensures r.Some? ==> r.value.r * 255.0 == ParseByte(Body(hex)[0], Body(hex)[1]) as real
    ensures r.Some? ==> r.value.g * 255.0 == ParseByte(Body(hex)[2], Body(hex)[3]) as real
    ensures r.Some? ==> r.value.b * 255.0 == ParseByte(Body(hex)[4], Body(hex)[5]) as real
  {
    var body := Body(hex);
    if IsHexBody(body) then
      Some(Rgb(Channel(body, 0), Channel(body, 1), Channel(body, 2)))
    else
      None
  }

  // ---------------------------------------------------------------------
  // The inverse direction: formatting bytes as `#rrggbb`

  /** The lower-case hexadecimal digit of a value below 16. */
  function DigitChar(v: nat): (c: char)
    requires v < 16
    ensures IsHexDigit(c) && DigitValue(c) == v
  {
    if v < 10 then ('0' as int + v) as char else ('a' as int + v - 10) as char
  }

  /** Two lower-case hexadecimal digits of a byte. */
  function FormatByte(b: nat): (s: string)
    requires b < 256
    ensures |s| == 2 && IsHexDigit(s[0]) && IsHexDigit(s[1])
    ensures ParseByte(s[0], s[1]) == b
  {
    [DigitChar(b / 16), DigitChar(b % 16)]
  }

  /** The `#rrggbb` form the colour controls hold. */
  function FormatHex(r: nat, g: nat, b: nat): (s: string)
    requires r < 256 && g < 256 && b < 256
    ensures MatchesHexColor(s) && s[0] == '#'
  {
    "#" + FormatByte(r) + FormatByte(g) + FormatByte(b)
  }

  /** Formatting three bytes and parsing the result gives each byte
      divided by 255. */
  lemma FormatThenParse(r: nat, g: nat, b: nat)
    requires r < 256 && g < 256 && b < 256
    ensures HexToRgbF(FormatHex(r, g, b)) == Some(Rgb(r as real / 255.0, g as real / 255.0, b as real / 255.0))
  {
    var s := FormatHex(r, g, b);
    var body := Body(s);
    assert body == FormatByte(r) + FormatByte(g) + FormatByte(b);
    assert body[0..2] == FormatByte(r) && body[2..4] == FormatByte(g) && body[4..6] == FormatByte(b);
  }

  /** ASCII lower-casing of one character. */
  function LowerChar(c: char): char
  {
    if 'A' <= c <= 'Z' then (c as int + 32) as char else c
  }

  /** ASCII upper-casing of one character. */
  function UpperChar(c: char): char
  {
    if 'a' <= c <= 'z' then (c as int - 32) as char else c
  }

  function Lower(s: string): (t: string)
    ensures |t| == |s| && forall k :: 0 <= k < |s| ==> t[k] == LowerChar(s[k])
  {
    seq(|s|, k requires 0 <= k < |s| => LowerChar(s[k]))
  }

  function Upper(s: string): (t: string)
    ensures |t| == |s| && forall k :: 0 <= k < |s| ==> t[k] == UpperChar(s[k])
  {
    seq(|s|, k requires 0 <= k < |s| => UpperChar(s[k]))
  }

  /** Parsing then formatting the bytes back gives the input in its
      canonical form: with a `#` and lower-case digits. The bytes are the
      whole numbers the channels times 255 equal. */
  lemma ParseThenFormat(hex: string)
    requires MatchesHexColor(hex)
    ensures var c := HexToRgbF(hex).value;
      forall r: nat, g: nat, b: nat | c.r * 255.0 == r as real && c.g * 255.0 == g as real && c.b * 255.0 == b as real ::
        r < 256 && g < 256 && b < 256 && FormatHex(r, g, b) == "#" + Lower(Body(hex))
  {
    var body := Body(hex);
    assert IsHexBody(body);
    FormatParsedBody(body);
  }

  /** Formatting the three bytes of a six-digit body gives the body,
      lower-cased, after a `#`. */
  lemma FormatParsedBody(body: string)
    requires IsHexBody(body)
    ensures FormatHex(ParseByte(body[0], body[1]), ParseByte(body[2], body[3]), ParseByte(body[4], body[5]))
            == "#" + Lower(body)
  {
    FormatParsedByte(body[0], body[1]);
    FormatParsedByte(body[2], body[3]);
    FormatParsedByte(body[4], body[5]);
    var lowered := [LowerChar(body[0]), LowerChar(body[1]), LowerChar(body[2]),
                    LowerChar(body[3]), LowerChar(body[4]), LowerChar(body[5])];
    assert Lower(body) == lowered;
  }

  /** Formatting a parsed pair of digits gives the pair, lower-cased. */
  lemma FormatParsedByte(hi: char, lo: char)
    requires IsHexDigit(hi) && IsHexDigit(lo)
    ensures FormatByte(ParseByte(hi, lo)) == [LowerChar(hi), LowerChar(lo)]
  {
    DigitRoundTrip(hi);
    DigitRoundTrip(lo);
  }

  /** The digit of a digit's value is that digit, lower-cased. */
  lemma DigitRoundTrip(c: char)
    requires IsHexDigit(c)
    ensures DigitChar(DigitValue(c)) == LowerChar(c)
  {
  }

  /** The `#` is optional: a string without a leading `#` parses to the
      same colour (or to null alike) with and without one prepended. */
  lemma HashIsOptional(s: string)
    requires |s| == 0 || s[0] != '#'
    ensures HexToRgbF("#" + s) == HexToRgbF(s)
  {
    assert ("#" + s)[1..] == s;
  }

  /** The `i` flag: upper-casing the input never changes the result. */
  lemma CaseInsensitive(s: string)
    ensures HexToRgbF(Upper(s)) == HexToRgbF(s)
  {
    var u := Upper(s);
    assert Body(u) == Upper(Body(s)) by {
      if |s| > 0 && s[0] == '#' {
        assert u[1..] == Upper(s[1..]);
      }
    }
    var bs, bu := Body(s), Body(u);
    forall k | 0 <= k < |bs|
      ensures IsHexDigit(bs[k]) <==> IsHexDigit(bu[k])
      ensures IsHexDigit(bs[k]) ==> DigitValue(bu[k]) == DigitValue(bs[k])
    {
      UpperDigit(bs[k]);
    }
    if IsHexBody(bs) {
      assert IsHexBody(bu);
      assert Channel(bu, 0) == Channel(bs, 0);
      assert Channel(bu, 1) == Channel(bs, 1);
      assert Channel(bu, 2) == Channel(bs, 2);
    } else {
      assert !IsHexBody(bu);
    }
  }

  /** Upper-casing keeps a character a hexadecimal digit or a non-digit,
      and keeps a digit's value. */
  lemma UpperDigit(c: char)
    ensures IsHexDigit(UpperChar(c)) <==> IsHexDigit(c)
    ensures IsHexDigit(c) ==> DigitValue(UpperChar(c)) == DigitValue(c)
  {
  }

  /** The values the program itself relies on: the default tint `#ff0000`
      is pure red with or without its `#`, and a non-hex string is null. */
  lemma HexExamples()
    ensures HexToRgbF("#ff0000") == Some(Rgb(1.0, 0.0, 0.0))
    ensures HexToRgbF("ff0000") == Some(Rgb(1.0, 0.0, 0.0))
    ensures HexToRgbF("#FF0000") == Some(Rgb(1.0, 0.0, 0.0))
    ensures HexToRgbF("zzzzzz") == None
    ensures HexToRgbF("#ff000") == None
  {
    assert IsHexBody("ff0000");
    assert IsHexBody("FF0000");
    assert !IsHexDigit("zzzzzz"[0]);
    assert "#ff0000"[1..] == "ff0000";
    assert "#FF0000"[1..] == "FF0000";
    assert "#ff000"[1..] == "ff000";
  }
}

=== FILE: scene.dfy ===
/** The per-frame scene `drawScene` of app/js/cube.js assembles: for each
    cube, the translations and the rotation handed to the matrix library
    and the two culling passes it draws; once per frame, the uniform values
    it uploads. The matrices themselves (perspective, rotate, invert,
    transpose) belong to a library outside this model: only their inputs
    are modelled. */
module Scene {
  import opened Wrappers
  import opened Geometry
  import HexColor

  /** The face culled during one `drawElements` call. */
  datatype Cull = CullFront | CullBack

  /** The transform inputs and draw calls of one cube, in call order:
      translate by `camera`, translate by `lateral`, rotate by `angle`
      around `axis`, translate by `back`; then one draw per culling pass,
      each over `vertexCount` indices. */
  datatype CubeDraw = CubeDraw(
    camera: Vec3,
    lateral: Vec3,
    angle: real,
    axis: Vec3,
    back: Vec3,
    passes: seq<Cull>,
    vertexCount: nat)

  /** The inputs of `mat4.perspective`, the aspect ratio aside (it comes
      from the canvas size). */
  datatype Projection = Projection(fieldOfViewDegrees: real, zNear: real, zFar: real)

  /** The values uploaded after the per-cube loop. */
  datatype Uniforms = Uniforms(
    projection: Projection,
    distortion: real,
    distortionSpeed: real,
    lightIntensity: real,
    color: HexColor.Rgb,
    time: real)

  /** Everything one completed `drawScene` call produces. */
  datatype Picture = Picture(draws: seq<CubeDraw>, uniforms: Uniforms)

  /** `offsetMat`. */
  const OffsetMat: real := -3.0

  const CameraTranslation: Vec3 := Vec3(0.0, 0.0, -20.0)

  const RotationAxis: Vec3 := Vec3(0.0, 1.0, 1.0)

  /** Extra rotation, in radians, of each cube over the previous one. */
  const AngleStep: real := 10.0

  const ViewProjection: Projection := Projection(45.0, 0.1, 100.0)

  /** The x of the translation before the rotation, chosen by the
      `i === 2` / `i === 1` / otherwise chain: the cubes land 3 units apart,
      the middle one on the view axis. */
  function LateralOffset(i: int): (x: real)
    ensures 0 <= i < CubeCount ==> x == i as real * Spacing - Spacing
  {
    if i == 2 then 6.0 + OffsetMat
    else if i == 1 then 3.0 + OffsetMat
    else 0.0 + OffsetMat
  }

  /** The x of the translation after the rotation: it brings the centre of
      cube `i`, built around `x = 3 i`, to the origin, so that each cube
      turns about its own centre. */
  function ReturnOffset(i: int): (x: real)
    ensures 0 <= i < CubeCount ==> x + Centre(i).x == 0.0
  {
    if i == 2 then -6.0
    else if i == 1 then -3.0
    else 0.0
  }

  /** The transform inputs and draw calls of cube `i` when the animation
      angle is `rotation`. */
  function DrawCube(i: int, rotation: real): CubeDraw
  {
    CubeDraw(
      CameraTranslation,
      Vec3(LateralOffset(i), 0.0, 0.0),
      rotation + i as real * AngleStep,
      RotationAxis,
      Vec3(ReturnOffset(i), 0.0, 0.0),
      [CullFront, CullBack],
      IndexCount)
  }

  /** `drawScene` for `cubes` cubes. The colour is read as `this.color.r`
      after the loop; when it is null that read throws, so no picture is
      completed (`None`). */
  function DrawScene(cubes: nat, rotation: real, distortion: real, distortionSpeed: real,
                     lightIntensity: real, color: Option<HexColor.Rgb>, time: real): (p: Option<Picture>)
    ensures p.Some? <==> color.Some?
    ensures p.Some? ==> |p.value.draws| == cubes
    ensures p.Some? ==> forall i :: 0 <= i < cubes ==>
      p.value.draws[i].angle == rotation + i as real * AngleStep &&
      p.value.draws[i].passes == [CullFront, CullBack] &&
      p.value.draws[i].vertexCount == IndexCount
    ensures p.Some? ==> forall i :: 0 <= i < cubes ==>
      p.value.draws[i].camera == CameraTranslation &&
      p.value.draws[i].lateral == Vec3(LateralOffset(i), 0.0, 0.0) &&
      p.value.draws[i].axis == RotationAxis &&
      p.value.draws[i].back == Vec3(ReturnOffset(i), 0.0, 0.0)
    ensures p.Some? ==> p.value.uniforms == Uniforms(ViewProjection, distortion, distortionSpeed,
                                                     lightIntensity, color.value, time)
  {
    match color
    case None => None
    case Some(c) =>
      Some(Picture(
        seq(cubes, i => DrawCube(i, rotation)),
        Uniforms(ViewProjection, distortion, distortionSpeed, lightIntensity, c, time)))
  }

  /** The three cubes sit at x = -3, 0 and 3 after their lateral
      translation: evenly spaced and symmetric about the view axis. */
  lemma CubesSpacedAlongX()
    ensures LateralOffset(0) == -Spacing && LateralOffset(1) == 0.0 && LateralOffset(2) == Spacing
    ensures forall i :: 0 <= i < CubeCount - 1 ==> LateralOffset(i + 1) - LateralOffset(i) == Spacing
  {
  }

  /** After the return translation, every vertex of cube `i` is a corner of
      the 2 x 2 x 2 box centred at the origin, the fixed point of the
      rotation: the rotation turns each cube about its own centre, and the
      cube's centre then ends at `LateralOffset(i)`. */
  lemma CubesRotateAboutOwnCentre(i: int)
    requires 0 <= i < CubeCount
    ensures forall k :: 0 <= k < VertexCount ==>
      var x := CubeVertices(i)[k].x + ReturnOffset(i);
      x == -1.0 || x == 1.0
    ensures Centre(i).x + ReturnOffset(i) == 0.0
  {
    VerticesAreCorners(i);
    forall k | 0 <= k < VertexCount
      ensures var x := CubeVertices(i)[k].x + ReturnOffset(i); x == -1.0 || x == 1.0
    {
      assert IsCorner(i, CubeVertices(i)[k]);
    }
  }
}

=== FILE: wrappers.dfy ===
/** The absent-or-present value the model uses wherever the program yields
    `null` (a colour string that does not parse, a frame that throws). */
module Wrappers {

  datatype Option<+T> = None | Some(value: T)
}
